=== FILE: README.md ===
# Ingest arena of the TCP/UDP receive kernel modules, in Dafny

The two receive kernel modules (TCP and UDP) each own one large byte buffer,
the arena, with two cursors. The write cursor (`sys_buffer_pos`) is advanced
by a kernel receive thread that appends every received chunk. The read cursor
(`user_buffer_pos`) is advanced by reads of the `data` module parameter, each
of which copies out at most one page; sysfs hands the reader at most one byte
less. For UDP, writing 1 to the `stop` parameter stops the receive thread and
writing 0 starts a new one. That new thread cannot bind the module's
already-bound socket, never receives and returns at once, so the next write
of 1 stops a thread that has already returned (see Findings). The TCP `stop` setter is meant to stop
the thread, but no write ever reaches that branch (see Findings). The UDP send
module stages a written string in a zero-filled 4096-byte buffer and sends it
as one datagram.

The model is a functional state machine:

- `Common` (common.dfy): bytes, `PageSize`, the kernel error numbers, and the
  outcomes of the kernel calls the model takes as inputs. A receive is either
  a negative code or up to a page of bytes. `param_set_int` either stores a
  value or fails.
- `Ingest` (ingest.dfy): the `Arena` record. Its capacity is the length of
  its allocation, a parameter rather than 4 GB. It has `Append` with its
  strict, all-or-nothing capacity check, and `Drain`, the `data` getter as
  written. It also has trace lemmas over repeated appends and drains.
- `TcpReceive` (tcp_receive.dfy): `receive_thread` as phases
  Setup/Listening/Reading/Exited, one `Step` per observed event, the stop
  setter, and a `Service` that combines the thread with `recv_thread != NULL`.
- `UdpReceive` (udp_receive.dfy): `receive_udp` as phases
  Binding/Looping/Exited, with the thread's return value kept in the phase. It
  has the stop setter with its start/stop transitions, and a `Service` that
  also holds the `stop` parameter and whether the module's one socket has
  been bound.
- `UdpSend` (udp_send.dfy): `strlen`, the length check, the staging copy and
  the send's return value.

The services follow the code as written. Where the code evidently means
something else, the intended definition sits beside it (see Findings).

A read copies min(write, PAGE_SIZE) bytes starting at the read cursor,
whatever the read cursor is (see Findings).

## Model

| member | source | states |
|---|---|---|
| `Ingest.Arena.Reset` | tcp/receive_module.c:113-114 | Starting a session puts both cursors back to 0 and leaves the bytes where they are, so the arena is valid whatever its cursors were. The UDP thread does the same after binding (udp/receive_udp.c:79-80). |
| `Ingest.Append` | tcp/receive_module.c:137-148 | A chunk is copied exactly when write + length ≤ capacity. When it is, it lands at [write, write+length) and the write cursor grows by exactly its length. The bytes before and after, and the read cursor, are unchanged. Otherwise nothing is copied at all. |
| `Ingest.AppendAllWritesConcatenation` | udp/receive_udp.c:111-114 | Appends whose total fits all succeed. The write cursor moves by the sum of the lengths, and the arena holds the chunks back to back from the old write cursor. |
| `Ingest.AppendAllOverflows` | udp/receive_udp.c:112-119 | Appends whose total does not fit end in an overflow at some chunk. With the lemma above, this is the if-and-only-if for a sequence of appends. |
| `Ingest.Drain` | tcp/receive_module.c:220-235 | A read returns min(write, PAGE_SIZE), whatever the read cursor is, and advances the read cursor by exactly that. It leaves the write cursor and the bytes alone. The copied bytes are the span at the read cursor when that span lies inside the allocation, and undefined otherwise. |
| `Ingest.DrainTimesAdvances` | udp/receive_udp.c:201-212 | After k reads the read cursor has moved forward by k × min(write, PAGE_SIZE), and the write cursor and bytes are unchanged. So the read cursor never decreases. |
| `Ingest.DrainStreamIsContiguous` | tcp/receive_module.c:222-229 | Consecutive reads copy adjacent, non-overlapping spans. k reads together yield exactly the k-count span from the read cursor, and are all defined exactly when that span ends inside the allocation. |
| `Ingest.DrainOvertakesWrite` | tcp/receive_module.c:222-229 | Once a non-empty arena has been read up to its write cursor, the next read still returns a positive count and moves the read cursor past the write cursor. |
| `Ingest.SecondDrainRunsPastArena` | udp/receive_udp.c:203-208 | In a one-page arena holding 3000 bytes, the first read returns those 3000 bytes. The second asks for 3000 more at offset 3000, past the end of the allocation. |
| `Ingest.Delivered` | tcp/receive_module.c:220-235 | What a reader of the `data` file receives from one read: a prefix of the bytes the getter copied, of length min(count, PAGE_SIZE − 1), because sysfs cuts a full-page count. Nothing when the copy has no defined contents. |
| `Ingest.FullPageReadLosesLastByte` | tcp/receive_module.c:222-234 | Once a page has been received, a read moves the read cursor by PAGE_SIZE but delivers only the first PAGE_SIZE − 1 of those bytes, so the last byte of every such page is lost. |
| `Ingest.DrainAvailable` | tcp/receive_module.c:222 | Corrected read: at most PAGE_SIZE − 1 of the bytes between the cursors, which keeps read ≤ write ≤ capacity. |
| `Ingest.AvailableReadsAreDeliveredWhole` | tcp/receive_module.c:222-234 | A corrected read is never cut by sysfs: the reader receives every byte it copies, and the read cursor moves by exactly that many. |
| `Ingest.StreamAvailableIsUnread` | tcp/receive_module.c:222-229 | Repeated corrected reads return, and deliver to the reader, every written, unread byte exactly once and in order. |
| `TcpReceive.Release` | tcp/receive_module.c:143-146 | A release point releases the client socket only if it is still held, and forgets it. So a later release point in the same session finds nothing, and each client is released exactly once. |
| `TcpReceive.LeaveSession` | tcp/receive_module.c:172-190 | Leaving the receive loop for any reason releases a client still held, and returns to the accept loop with the arena untouched. From a reading state it leaves exactly one release behind. |
| `TcpReceive.Step` | tcp/receive_module.c:85-192 | One event of the loop. A bound socket starts the accept loop, and a setup failure or should-stop ends the thread. An accept resets both cursors and holds the client. An empty receive (the peer closed) releases the client and goes back to accepting. A failed listen or accept changes nothing. A chunk that fits is appended and continues the session only if it is non-empty. An overflow or a receive error ends the session with the arena untouched. Leaving a session releases the client exactly once. Only an accept moves the read cursor. |
| `TcpReceive.Run` | tcp/receive_module.c:85-192 | A trace of events never changes the arena's capacity. |
| `TcpReceive.RunPreservesInv` | tcp/receive_module.c:113-190 | After any feasible sequence of accepts, receives and failures, the write cursor is within capacity. A client is held exactly while reading, and no client socket is released twice. |
| `TcpReceive.ThreeThousandBytesThenClose` | tcp/receive_module.c:102-178 | A client that sends 3000 bytes and closes leaves write = 3000 with those bytes in place. Its socket is released once and the thread is back at accept. The next read returns the 3000 bytes and sets the read cursor to 3000. |
| `TcpReceive.SetStopParam` | tcp/receive_module.c:246-263 | The stop setter stops the thread exactly when the value returned by param_set_int is 1 and a thread exists. It never starts one and always returns 0. |
| `TcpReceive.SetStopNeverFires` | tcp/receive_module.c:249-253 | Because param_set_int returns 0 or a negative code, no write to `stop` stops the thread through this setter. |
| `TcpReceive.SetStopOnValue` | tcp/receive_module.c:249-260 | Corrected setter: it stops exactly when the value written is 1 and a thread exists, and returns param_set_int's result. |
| `TcpReceive.Halt` | tcp/receive_module.c:257 | kthread_stop waits for the thread to return. The thread ends up exited with the arena untouched, and the thread invariant is kept. |
| `TcpReceive.Apply` | tcp/receive_module.c:220-262 | The module as a whole. No operation starts a thread. A read of `data` changes only the read cursor. Every operation keeps the thread invariant and keeps "no thread ⇒ thread exited". |
| `TcpReceive.StoppedServiceFreezesArena` | tcp/receive_module.c:253-262 | Once the thread is stopped, any later operations leave it stopped. The bytes and the write cursor stay as they were, and only reads move the read cursor, forward. |
| `UdpReceive.ExitCode` | udp/receive_udp.c:129-135 | The cleanup after the loop replaces `ret` with 0 whenever the receive buffer is still held, whatever `ret` was. Only the exits that freed the buffer first keep their value. |
| `UdpReceive.Step` | udp/receive_udp.c:71-135 | One event of the thread. A failed bind returns its code with the cursors untouched. A successful bind resets both cursors before any receive. should-stop returns 0. A non-zero `stop` ends the thread's work without receiving: the thread sleeps until kthread_stop wakes it, and the model takes it to its exit at once. A receive error returns its code at once. A datagram that fits is appended at the write cursor. One that does not fit is dropped, and the thread returns 0. |
| `UdpReceive.StopFlagReturnsLastLength` | udp/receive_udp.c:83-135 | After a non-zero `stop` the woken thread frees the buffer before the cleanup, so it returns the length of the last datagram rather than 0. |
| `UdpReceive.OverflowReportsSuccess` | udp/receive_udp.c:115-135 | After an overflow the thread returns 0, never -ENOMEM. |
| `UdpReceive.ExitCodeKeepingError` | udp/receive_udp.c:117-133 | Corrected cleanup: a negative code stored in `ret` survives it, and otherwise it behaves as written. |
| `UdpReceive.Run` | udp/receive_udp.c:71-135 | Over any trace, the thread never advances the read cursor; it can only zero it, by binding. A thread that has returned observes nothing more. |
| `UdpReceive.RunKeepsWriteInArena` | udp/receive_udp.c:79-127 | After any feasible sequence of events the write cursor is within capacity. |
| `UdpReceive.FourthDatagramOverflows` | udp/receive_udp.c:101-119 | In a one-page arena, three 1000-byte datagrams are stored back to back, giving write = 3000. A fourth of 1100 bytes overflows and is not copied, and the thread returns 0 with write still 3000. |
| `UdpReceive.ParamSetStop` | udp/receive_udp.c:139-159 | A successful write of 0 with no thread starts one. If the spawn fails, the thread stays absent and the setter returns 0. Otherwise, with `stop` now 1 and a thread present, the thread is stopped, even when the set itself failed. In every other case nothing changes but the stored value. The return value is param_set_int's. |
| `UdpReceive.ParamSetStopReportingSpawnError` | udp/receive_udp.c:144-149 | Corrected setter: a failed start returns kthread_run's negative error. In every other case it agrees with the setter as written. |
| `UdpReceive.Halt` | udp/receive_udp.c:153 | kthread_stop on a thread whose function has not started yet means the function never runs, and it exits with -EINTR. A thread in its loop is stopped there and returns 0. Either way the arena is untouched. |
| `UdpReceive.Apply` | udp/receive_udp.c:139-212 | The module as a whole. Every operation keeps the write cursor in the arena and keeps "no thread ⇒ thread exited". A read of `data` moves only the read cursor. A newly started thread starts out binding, with the arena as it was. The socket becomes bound at the first successful bind and stays bound. |
| `UdpReceive.StoppedUntilRestart` | udp/receive_udp.c:151-156 | Once the thread is stopped, nothing writes the arena until a successful write of 0 starts a new thread. Only reads move the read cursor, forward. |
| `UdpReceive.BoundSocketNeverReceivesAgain` | udp/receive_udp.c:71-80 | Once the module's socket has been bound and no thread is in its receive loop, nothing writes the arena again, whatever is written to `stop`. The bytes and the write cursor stay fixed, and only reads move the read cursor, forward. |
| `UdpReceive.RestartNeverResetsCursors` | udp/receive_udp.c:142-150 | As written, writing 0 to `stop` after a stop starts a thread. Its bind of the already-bound socket can only fail, so it returns that error with the arena exactly as before. |
| `UdpReceive.ApplyWithFreshSocket` | udp/receive_udp.c:142-150 | Corrected module: a started thread gets an unbound socket. Every other operation behaves as written, and the module invariant is kept. |
| `UdpReceive.RestartResetsCursors` | udp/receive_udp.c:71-80 | With a fresh socket per thread, writing 0 to `stop` after a stop starts a thread whose bind may succeed. Once it has bound, both cursors are 0, however far the arena had been filled and drained. |
| `UdpReceive.ExitedThreadBlocksRestart` | udp/receive_udp.c:142 | A thread that returned on its own, or sleeps after a non-zero `stop`, leaves recv_thread set. So writing 0 to `stop` neither wakes it nor starts another, and changes nothing but the stored value. A restart takes a write of 1 first, which for a thread that has returned stops a task the module holds no reference on (see Findings). |
| `UdpReceive.StopAfterReturnStopsReturnedThread` | udp/receive_udp.c:142-153 | As written, after a stop, writing 0 starts a thread whose bind can only fail, so it returns by itself while recv_thread stays set. The next write of 1 then calls kthread_stop on that returned thread. |
| `UdpReceive.ApplyForgettingReturned` | udp/receive_udp.c:139-158 | Corrected module: recv_thread is cleared when the thread returns by itself. Every other step behaves as written, and "recv_thread is set exactly while the thread has not returned" is kept. |
| `UdpReceive.ForgettingNeverStopsReturnedThread` | udp/receive_udp.c:151-153 | In the corrected module, after any sequence of steps recv_thread names a live thread, so no write to `stop` stops a thread that has already returned. |
| `UdpSend.StrLen` | udp/send_udp.c:63 | The measured length is the position of the first NUL: every byte before it is non-zero. |
| `UdpSend.StrLenOfTerminated` | udp/send_udp.c:63 | For a text without NUL followed by a terminator, the measured length is the text's length, whatever follows. |
| `UdpSend.SendUdp` | udp/send_udp.c:34-59 | The send reports 0 on success rather than the byte count, and the negative code on failure. |
| `UdpSend.SetData` | udp/send_udp.c:62-75 | A string longer than 4096 bytes is refused with -EINVAL, leaving the buffer untouched and sending nothing. Otherwise buffer[0..len) is the string and buffer[len..4096) is all zero. The datagram sent is exactly the string's len bytes, and the result is the send's. |
| `UdpSend.FullBufferIsSent` | udp/send_udp.c:65-74 | A string of exactly 4096 bytes is accepted and sent whole, because the check is strict. |
| `UdpSend.OneByteOverIsRefused` | udp/send_udp.c:63-68 | A string of 4097 bytes is refused with -EINVAL and changes nothing. |

## Findings

| source | as written | input that shows it | evidently intended | confidence | as-written member | corrected member |
|---|---|---|---|---|---|---|
| tcp/receive_module.c:222 | the read size is min(write cursor, PAGE_SIZE), independent of the read cursor | a one-page arena with 3000 bytes written, read twice: the second read asks for bytes 3000..6000 | min(write − read, PAGE_SIZE − 1), so reads stop at the write cursor and sysfs delivers them whole | high; not executed | `Ingest.DrainOvertakesWrite` | `Ingest.DrainAvailable` |
| udp/receive_udp.c:117-133 | the -ENOMEM stored on overflow is overwritten with 0 by the cleanup, because the receive buffer is still held | any datagram that does not fit in the arena. The exit code is never read, because kthread_stop's result is discarded (udp/receive_udp.c:153, 275), so nothing downstream sees it | the thread returns -ENOMEM | high; not executed | `UdpReceive.OverflowReportsSuccess` | `UdpReceive.ExitCodeKeepingError` |
| udp/receive_udp.c:146-148 | recv_thread is cleared before PTR_ERR(recv_thread) is taken, so a failed start returns 0 | writing 0 to `stop` with no thread while kthread_run fails | return kthread_run's error | high; not executed | `UdpReceive.ParamSetStop` | `UdpReceive.ParamSetStopReportingSpawnError` |
| tcp/receive_module.c:249-253 | the thread is stopped when param_set_int's return value equals 1 | writing 1 to `stop`: `stop` is registered without a backing variable (tcp/receive_module.c:290), so param_set_int either refuses the text with a negative code or faults storing a parsed value. It never returns 1 | stop when the value written is 1 | medium (rests on param_set_int returning 0 or a negative code when it returns at all); not executed | `TcpReceive.SetStopNeverFires` | `TcpReceive.SetStopOnValue` |
| udp/receive_udp.c:71-80 | the one socket, created at load (udp/receive_udp.c:233), is bound by every thread run and released only at unload | write 1 then 0 to `stop` after the first thread has bound: the new thread's kernel_bind of the bound socket fails (Linux's inet_bind answers -EINVAL), so it returns before resetting the cursors and never receives | each started thread binds a socket of its own, resets the cursors and receives | medium (rests on inet_bind refusing a bound socket); not executed | `UdpReceive.BoundSocketNeverReceivesAgain` | `UdpReceive.RestartResetsCursors` |
| tcp/receive_module.c:222-234 | a read returns a full PAGE_SIZE count once a page has been received; sysfs's show path treats a count of PAGE_SIZE or more as bad and keeps PAGE_SIZE − 1 bytes, while the read cursor has moved by PAGE_SIZE | any arena holding 4096 or more bytes, read once: the reader gets 4095 bytes and the next read starts at 4096 | return at most PAGE_SIZE − 1 bytes per read | medium (rests on sysfs_kf_seq_show cutting a full-page count); not executed | `Ingest.FullPageReadLosesLastByte` | `Ingest.AvailableReadsAreDeliveredWhole` |
| udp/receive_udp.c:151-153 | recv_thread is the bare task pointer kthread_run returned, and stays set after the thread returns by itself; a write of 1 then calls kthread_stop on it without the module holding a reference | write 1, then 0 (the new thread's bind of the bound socket fails and it returns), then 1 | recv_thread only names a live thread, or the module holds a task reference | medium (rests on kthread_stop requiring the caller to keep a self-exiting thread's task alive); not executed | `UdpReceive.StopAfterReturnStopsReturnedThread` | `UdpReceive.ForgettingNeverStopsReturnedThread` |

## Left out

- Socket calls: creating, binding, listening, accepting, receiving and sending are foreign I/O. Each answer the loops wait for is an input event: a negative code, or up to a page of bytes.
- Threads: starting, stopping and scheduling threads is real concurrency. The thread's existence is a `running` flag. kthread_stop is `Halt`, which takes the thread to its exit through its should-stop path. There are no interleavings, and `Drain` is not raced against the receiver.
- TcpReceive.Halt and UdpReceive.Halt: a thread still in its setup is taken straight to its exit, which is the case where its function has not started yet and never runs. A UDP thread that is already running when it is stopped still binds, and a successful bind resets both cursors before the should-stop test. The model reaches that state only as the event Bind followed by the stop. A TCP thread in its setup does not touch the arena before its first accept. The exit code is never observed.
- The UDP inactivity timer is left out. Its callback only logs, and it is switched off in the module.
- Module init and exit, buffer allocation and its failures, logging and the `debug` flag are plumbing. For TCP the thread's setup failures are one `SetupFailed` event. The UDP thread's receive-buffer allocation failure is not modelled.
- Code that is compiled out (`#if 0`, `OLD_PARAM_GET_DATA`) is never built.
- The `data` setter of the receive modules (tcp/receive_module.c:209-217, udp/receive_udp.c:192-198) is not modelled. It calls param_set_charp on `data`, which is registered with the arena pointer itself as its argument (tcp/receive_module.c:242, udp/receive_udp.c:219). A write therefore re-points g_buffer at a small fresh copy of the written string and leaks the arena. Later reads copy from that string's buffer, and appends write past its end. Every arena property here assumes `data` is never written.
- TcpReceive.StoppedServiceFreezesArena: holds only while `data` is not written, because a write re-points the arena (see above).
- UdpReceive.StoppedUntilRestart: holds only while `data` is not written, for the same reason.
- UdpReceive.BoundSocketNeverReceivesAgain: holds only while `data` is not written, for the same reason.
- UdpReceive.Step: a non-zero `stop` seen at the loop top does not end the thread by itself. The thread sets itself interruptible and sleeps (udp/receive_udp.c:85-86) until kthread_stop wakes it, and only then frees the buffer and returns. A value other than 1 can park it indefinitely, since a later write of 0 neither wakes it nor starts a new one. The model takes it to `Exited` at once, which leaves the arena and recv_thread exactly as the sleep does. Only the moment of the return differs, and the return value is never read.
- The UDP `stop` getter is param_get_int.
- tcp/send_module.c is not part of this model. Its logic is connect/send plumbing plus an empty-data check and a foreign address parse.
- sources/receive_app.c and udp/receive_udp_app.c are not part of this model. They are user-space socket-to-file utilities.
- Ingest.Drain: the read cursor is an unbounded `nat`, so the model omits its 64-bit wrap-around, which the 4 GB arena would need about 2^52 reads to reach. The sum of the write cursor and a chunk cannot wrap for that capacity.
- TcpReceive.SetStopParam: the `stop` parameter of the TCP module is registered without a backing variable. A parsable value makes param_set_int store through a null pointer and fault. The model does not represent the fault: its return value is an input, and SetStopNeverFires covers every value it can return.
- UdpReceive.Halt: the `Exited` case also stands for kthread_stop on a thread that has already returned, which the module does while holding no reference on the task. The model treats it as a no-op; the source's behaviour there is a use of a task that may be gone (see Findings).
- Ingest.Drain: `bytes` is what the getter writes into the sysfs buffer. A reader receives `Delivered` of it, which sysfs cuts to PAGE_SIZE − 1 bytes for a full-page count.
- Ingest.DrainAvailable: the corrected read is capped at PAGE_SIZE − 1 rather than a page, so that sysfs delivers it whole.

=== FILE: common.dfy ===
/** Vocabulary shared by the receive and send modules: bytes, the page-sized
    transfer bound, the kernel error codes the modules return, and the outcomes
    of the kernel library calls that the model takes as inputs. */
module Common {

  newtype byte = b: int | 0 <= b < 0x100

  /** PAGE_SIZE: the most one kernel_recvmsg call asks for, and the most one
      read of the `data` parameter copies out. */
  const PageSize: nat := 4096

  /** The most bytes a sysfs show callback can hand to a reader: a count of
      PAGE_SIZE or more is treated as bad and cut to PAGE_SIZE - 1. */
  const ShowLimit: nat := PageSize - 1

  /** Kernel error numbers (returned negated). */
  const EINTR: int := 4
  const ENOMEM: int := 12
  const EINVAL: int := 22

  datatype Option<+T> = None | Some(value: T)

  function Min(a: nat, b: nat): (m: nat)
    ensures m <= a && m <= b
    ensures m == a || m == b
  {
    if a <= b then a else b
  }

  /** One kernel_recvmsg call with a PAGE_SIZE buffer: a negative error code,
      or the bytes received (none at all is a legal outcome). */
  datatype RecvOutcome = RecvError(code: int) | Received(bytes: seq<byte>)
  {
    predicate WellFormed() {
      match this
      case RecvError(code) => code < 0
      case Received(bytes) => |bytes| <= PageSize
    }
  }

  /** param_set_int: either it parsed the written text, stored the value in the
      parameter and returned 0, or it returned a negative code and stored
      nothing. */
  datatype SetIntResult = SetOk(value: int) | SetFailed(code: int)
  {
    predicate WellFormed() {
      SetFailed? ==> code < 0
    }

    /** The value param_set_int returns. */
    function Ret(): (r: int)
      requires WellFormed()
      ensures r <= 0
      ensures r == 0 <==> SetOk?
    {
      if SetOk? then 0 else code
    }

    /** The parameter's value afterwards, given its value before. */
    function Stored(prior: int): (v: int)
      ensures SetOk? ==> v == value
      ensures SetFailed? ==> v == prior
    {
      if SetOk? then value else prior
    }
  }
}

=== FILE: ingest.dfy ===
/** The ingest arena shared by the TCP and UDP receive modules: one byte
    allocation (g_buffer) with a write cursor (sys_buffer_pos) advanced by the
    receive thread and a read cursor (user_buffer_pos) advanced by reads of the
    `data` parameter. The capacity is the length of the allocation, so that
    small arenas can stand in for the 4 GB one. */
module Ingest {
  import opened Common

  datatype Arena = Arena(data: seq<byte>, write: nat, read: nat)
  {
    function Capacity(): (n: nat) {
      |data|
    }

    /** The write cursor stays inside the allocation. Nothing bounds the read
        cursor: see Drain. */
    predicate Valid() {
      write <= |data|
    }

    /** Both cursors back to 0, as at the start of a receive session; the
        bytes themselves are left in place. */
    function Reset(): (a: Arena)
      ensures a.Valid() && a.data == data
      ensures a.write == 0 && a.read == 0
    {
      Arena(data, 0, 0)
    }
  }

  datatype AppendResult = Appended(arena: Arena) | Overflow

  /** Copying one received chunk into the arena at the write cursor. The check
      is strict: a chunk that does not fit entirely is not copied at all, and
      nothing wraps around. */
  function Append(a: Arena, chunk: seq<byte>): (r: AppendResult)
    ensures r.Appended? <==> a.write + |chunk| <= a.Capacity()
    ensures r.Appended? ==>
      var b := r.arena;
      && b.Valid()
      && b.Capacity() == a.Capacity()
      && b.write == a.write + |chunk|
      && b.read == a.read
      && b.data[..a.write] == a.data[..a.write]
      && b.data[a.write..b.write] == chunk
      && b.data[b.write..] == a.data[b.write..]
  {
    if a.write + |chunk| <= |a.data| then
      var data := a.data[..a.write] + chunk + a.data[a.write + |chunk|..];
      assert data[..a.write] == a.data[..a.write];
      assert data[a.write..a.write + |chunk|] == chunk;
      Appended(a.(data := data, write := a.write + |chunk|))
    else
      Overflow
  }

  /** The bytes of a sequence of chunks, one after the other. */
  function Flatten(chunks: seq<seq<byte>>): (bytes: seq<byte>)
  {
    if |chunks| == 0 then [] else chunks[0] + Flatten(chunks[1..])
  }

  /** Appending chunks in order; the first one that does not fit stops it. */
  function AppendAll(a: Arena, chunks: seq<seq<byte>>): (r: AppendResult)
    decreases |chunks|
  {
    if |chunks| == 0 then Appended(a)
    else match Append(a, chunks[0])
      case Overflow => Overflow
      case Appended(b) => AppendAll(b, chunks[1..])
  }

  /** Appends whose total fits all succeed: the write cursor moves by the sum
      of the lengths, the arena holds the chunks back to back from the old
      write cursor, and every other byte and the read cursor are unchanged. */
  lemma {:induction false} AppendAllWritesConcatenation(a: Arena, chunks: seq<seq<byte>>)
    requires a.write + |Flatten(chunks)| <= a.Capacity()
    ensures AppendAll(a, chunks).Appended?
    ensures
      var b := AppendAll(a, chunks).arena;
      && b.Capacity() == a.Capacity()
      && b.write == a.write + |Flatten(chunks)|
      && b.read == a.read
      && b.data[..a.write] == a.data[..a.write]
      && b.data[a.write..b.write] == Flatten(chunks)
      && b.data[b.write..] == a.data[b.write..]
    decreases |chunks|
  {
    if |chunks| > 0 {
      var m := Append(a, chunks[0]);
      assert m.Appended?;
      var a1 := m.arena;
      AppendAllWritesConcatenation(a1, chunks[1..]);
      var b := AppendAll(a1, chunks[1..]).arena;
      assert b.data[..a.write] == b.data[..a1.write][..a.write];
      assert b.data[a.write..b.write] == b.data[a.write..a1.write] + b.data[a1.write..b.write];
      assert b.data[a.write..a1.write] == b.data[..a1.write][a.write..];
    }
  }

  /** Appends whose total does not fit end in Overflow at some chunk. */
  lemma {:induction false} AppendAllOverflows(a: Arena, chunks: seq<seq<byte>>)
    requires a.Valid() && a.write + |Flatten(chunks)| > a.Capacity()
    ensures AppendAll(a, chunks).Overflow?
    decreases |chunks|
  {
    match Append(a, chunks[0])
    case Overflow =>
    case Appended(a1) =>
      AppendAllOverflows(a1, chunks[1..]);
  }

  /** What one read of the `data` parameter yields: the count it returns, the
      bytes it copies into the sysfs buffer when they lie inside the allocation (a copy running
      past its end has no defined contents), and the arena afterwards. */
  datatype Drained = Drained(count: nat, bytes: Option<seq<byte>>, arena: Arena)

  /** get_data_param as written: the count is the smaller of the WRITE cursor
      and a page, whatever the read cursor is, and the read cursor moves by
      that count. */
  function Drain(a: Arena): (r: Drained)
    ensures r.count <= PageSize && r.count <= a.write
    ensures r.count == PageSize || r.count == a.write
    ensures r.arena.read == a.read + r.count
    ensures r.arena.write == a.write && r.arena.data == a.data
    ensures r.bytes.Some? <==> a.read + r.count <= a.Capacity()
    ensures r.bytes.Some? ==>
      r.arena.read == a.read + r.count <= a.Capacity() && r.bytes.value == a.data[a.read..r.arena.read]
  {
    var n := Min(a.write, PageSize);
    var copied := if a.read + n <= |a.data| then Some(a.data[a.read..a.read + n]) else None;
    Drained(n, copied, a.(read := a.read + n))
  }

  /** What a reader of the `data` file receives from one read: the bytes the
      getter wrote into the sysfs buffer, cut to PAGE_SIZE - 1 when the
      getter returned a full page. */
  function Delivered(d: Drained): (r: Option<seq<byte>>)
    requires d.bytes.Some? ==> |d.bytes.value| == d.count
    ensures r.Some? <==> d.bytes.Some?
    ensures r.Some? ==>
      |r.value| == Min(d.count, ShowLimit) && r.value == d.bytes.value[..|r.value|]
  {
    match d.bytes
    case None => None
    case Some(b) => Some(if d.count >= PageSize then b[..ShowLimit] else b)
  }

  /** As written, once a page has been received every read returns a full
      page: the read cursor moves by PAGE_SIZE but the reader receives only
      PAGE_SIZE - 1 bytes, so the byte at the end of each page is lost. */
  lemma FullPageReadLosesLastByte(a: Arena)
    requires a.write >= PageSize && a.read + PageSize <= a.Capacity()
    ensures Drain(a).arena.read == a.read + PageSize
    ensures Delivered(Drain(a)) == Some(a.data[a.read..a.read + ShowLimit])
  {
    var d := Drain(a);
    assert d.bytes.value[..ShowLimit] == a.data[a.read..a.read + ShowLimit];
  }

  /** The arena after k reads of `data`. */
  function DrainTimes(a: Arena, k: nat): (b: Arena)
    decreases k
  {
    if k == 0 then a else DrainTimes(Drain(a).arena, k - 1)
  }

  /** The bytes k reads copy out, concatenated; None once one of them runs
      past the end of the allocation. */
  function DrainStream(a: Arena, k: nat): (r: Option<seq<byte>>)
    decreases k
  {
    if k == 0 then Some([])
    else
      var d := Drain(a);
      match (d.bytes, DrainStream(d.arena, k - 1))
      case (Some(x), Some(y)) => Some(x + y)
      case _ => None
  }

  /** Each read advances the read cursor by the same page-bounded amount,
      which depends only on the write cursor: after k reads it has moved by k
      times that amount, and the write cursor and the bytes are untouched. */
  lemma {:induction false} DrainTimesAdvances(a: Arena, k: nat)
    ensures DrainTimes(a, k).read == a.read + k * Min(a.write, PageSize)
    ensures DrainTimes(a, k).write == a.write
    ensures DrainTimes(a, k).data == a.data
    decreases k
  {
    if k > 0 {
      var c := Min(a.write, PageSize);
      DrainTimesAdvances(Drain(a).arena, k - 1);
      assert DrainTimes(a, k).read == a.read + c + (k - 1) * c;
      assert c + (k - 1) * c == k * c;
    }
  }

  /** Consecutive reads copy adjacent, non-overlapping spans: k reads together
      copy exactly the span of k counts starting at the read cursor, and they
      are all defined exactly when that span ends inside the allocation. */
  lemma {:induction false} DrainStreamIsContiguous(a: Arena, k: nat)
    requires k > 0
    ensures DrainStream(a, k).Some? <==> a.read + k * Min(a.write, PageSize) <= a.Capacity()
    ensures DrainStream(a, k).Some? ==>
      DrainStream(a, k).value == a.data[a.read..a.read + k * Min(a.write, PageSize)]
    decreases k
  {
    var c := Min(a.write, PageSize);
    var d := Drain(a);
    assert k * c == c + (k - 1) * c;
    if k > 1 {
      DrainStreamIsContiguous(d.arena, k - 1);
      assert (k - 1) * c >= 0;
      if d.bytes.Some? && DrainStream(d.arena, k - 1).Some? {
        var e := a.read + k * c;
        assert a.data[a.read..e] == a.data[a.read..a.read + c] + a.data[a.read + c..e];
      }
    }
  }

  /** As written, the read cursor is not kept behind the write cursor: once a
      non-empty arena has been read up to its write cursor, the next read
      still counts the write cursor's worth and moves the read cursor past
      it. */
  lemma DrainOvertakesWrite(a: Arena)
    requires 0 < a.write <= a.read
    ensures Drain(a).count > 0
    ensures Drain(a).arena.read > Drain(a).arena.write
  {
  }

  /** With a one-page arena holding 3000 received bytes, the first read
      returns all 3000 and the second asks for 3000 more starting at offset
      3000, which runs past the end of the allocation. */
  lemma SecondDrainRunsPastArena(data: seq<byte>)
    requires |data| == PageSize
    ensures
      var first := Drain(Arena(data, 3000, 0));
      var second := Drain(first.arena);
      && first.count == 3000 && first.bytes == Some(data[..3000])
      && second.count == 3000 && second.bytes.None?
      && second.arena.read == 6000
  {
  }

  /** The read the source evidently intends: the bytes between the read and
      the write cursor, at most as many as sysfs hands over whole. */
  function DrainAvailable(a: Arena): (r: Drained)
    requires a.Valid() && a.read <= a.write
    ensures r.count <= ShowLimit && a.read + r.count <= a.write
    ensures r.count == ShowLimit || a.read + r.count == a.write
    ensures r.arena.read == a.read + r.count
    ensures r.arena.write == a.write && r.arena.data == a.data
    ensures r.arena.Valid() && r.arena.read <= r.arena.write
    ensures a.read <= r.arena.read <= a.Capacity() && r.bytes == Some(a.data[a.read..r.arena.read])
  {
    var n := Min(a.write - a.read, ShowLimit);
    Drained(n, Some(a.data[a.read..a.read + n]), a.(read := a.read + n))
  }

  /** A corrected read is never cut by sysfs: the reader receives every byte
      it copies, and the read cursor moves by exactly that many. */
  lemma AvailableReadsAreDeliveredWhole(a: Arena)
    requires a.Valid() && a.read <= a.write
    ensures Delivered(DrainAvailable(a)) == DrainAvailable(a).bytes
    ensures DrainAvailable(a).arena.read == a.read + |Delivered(DrainAvailable(a)).value|
  {
  }

  /** Everything repeated corrected reads return, until the cursors meet. */
  function StreamAvailable(a: Arena): (bytes: seq<byte>)
    requires a.Valid() && a.read <= a.write
    decreases a.write - a.read
  {
    if a.read == a.write then []
    else
      var d := DrainAvailable(a);
      d.bytes.value + StreamAvailable(d.arena)
  }

  /** Repeated corrected reads return every written, unread byte exactly once
      and in order. */
  lemma {:induction false} StreamAvailableIsUnread(a: Arena)
    requires a.Valid() && a.read <= a.write
    ensures StreamAvailable(a) == a.data[a.read..a.write]
    decreases a.write - a.read
  {
    if a.read != a.write {
      var d := DrainAvailable(a);
      StreamAvailableIsUnread(d.arena);
      assert a.data[a.read..a.write] == a.data[a.read..d.arena.read] + a.data[d.arena.read..a.write];
    }
  }
}

=== FILE: tcp_receive.dfy ===
/** The TCP receive kernel module: receive_thread accepts one connection at a
    time and appends what it receives to the shared arena; the `stop`
    parameter's setter stops the thread; reads of `data` drain the arena.
    Sockets and threads are not modelled: every answer the loop waits for
    (a listen, an accept, a receive, the should-stop test) arrives as an
    Event, and the thread's existence is the Service's `running` flag. */
module TcpReceive {
  import opened Common
  import opened Ingest

  /** Where receive_thread stands. */
  datatype Phase =
    | Setup      // allocating its chunk buffer, creating and binding the socket
    | Listening  // at the top of the accept loop
    | Reading    // in the receive loop of one accepted connection
    | Exited     // the thread function has returned

  /** The thread's view of the module: the arena, its phase, whether it still
      holds the accepted client socket (client_sock != NULL), and how often
      the most recently accepted client socket has been released. */
  datatype Worker = Worker(arena: Arena, phase: Phase, client: bool, releases: nat)

  /** What the loop observes at its next blocking call or checkpoint. */
  datatype Event =
    | SetupFailed(code: int)   // kmalloc, sock_create_kern or bind failed
    | Bound                    // the listening socket is bound
    | ShouldStop               // kthread_should_stop() is true at a loop top
    | ListenFailed(code: int)
    | AcceptFailed(code: int)
    | Accepted
    | Recv(outcome: RecvOutcome)

  /** The events the loop can observe in each phase. */
  predicate Enabled(w: Worker, e: Event) {
    match e
    case SetupFailed(code) => w.phase == Setup && code < 0
    case Bound => w.phase == Setup
    case ShouldStop => w.phase == Listening || w.phase == Reading
    case ListenFailed(code) => w.phase == Listening && code < 0
    case AcceptFailed(code) => w.phase == Listening && code < 0
    case Accepted => w.phase == Listening
    case Recv(o) => w.phase == Reading && o.WellFormed()
  }

  /** Releasing the client socket if it is still held, and forgetting it, so
      that a later release point finds nothing to release. */
  function Release(w: Worker): (r: Worker)
    ensures !r.client
    ensures r.arena == w.arena && r.phase == w.phase
    ensures w.client ==> r.releases == w.releases + 1
    ensures !w.client ==> r == w
  {
    if w.client then w.(client := false, releases := w.releases + 1) else w
  }

  /** Leaving the receive loop: a client socket still held is released, and
      the thread goes back to the top of the accept loop. */
  function LeaveSession(w: Worker): (r: Worker)
    ensures r.phase == Listening && !r.client && r.arena == w.arena
    ensures Inv(w) && w.phase == Reading ==> Inv(r) && r.releases == 1
  {
    Release(w).(phase := Listening)
  }

  /** The states the thread can be in: the write cursor inside the arena, a
      client socket held exactly while reading, released at most once, and
      not at all while its session is still reading. */
  predicate Inv(w: Worker) {
    && w.arena.Valid()
    && (w.client <==> w.phase == Reading)
    && w.releases <= 1
    && (w.phase == Reading ==> w.releases == 0)
  }

  /** One observation of the receive loop. */
  function Step(w: Worker, e: Event): (w': Worker)
    requires Enabled(w, e)
    ensures w'.arena.Capacity() == w.arena.Capacity()
    ensures Inv(w) ==> Inv(w')
    // only an accepted connection moves the read cursor
    ensures !e.Accepted? ==> w'.arena.read == w.arena.read
    // accepting resets both cursors and starts reading from the new client
    ensures e.Accepted? ==>
      w'.arena.write == 0 && w'.arena.read == 0 && w'.arena.data == w.arena.data
      && w'.phase == Reading && w'.client && w'.releases == 0
    // a bound socket starts the accept loop; a setup failure or should-stop ends the thread
    ensures e.Bound? ==> w'.phase == Listening
    ensures e.SetupFailed? || e.ShouldStop? ==> w'.phase == Exited
    // a failed listen or accept just goes round the loop again
    ensures e.ListenFailed? || e.AcceptFailed? ==> w' == w
    // a chunk that fits is copied at the write cursor, which grows by its length
    ensures e.Recv? && e.outcome.Received? && w.arena.write + |e.outcome.bytes| <= w.arena.Capacity() ==>
      var n := |e.outcome.bytes|;
      && w'.arena.Capacity() == w.arena.Capacity()
      && w'.arena.write == w.arena.write + n
      && w'.arena.data[w.arena.write..w'.arena.write] == e.outcome.bytes
      && w'.arena.data[..w.arena.write] == w.arena.data[..w.arena.write]
      && w'.arena.data[w'.arena.write..] == w.arena.data[w'.arena.write..]
      && w'.phase == (if n > 0 then Reading else Listening)
    // a chunk that does not fit is dropped whole and ends the session
    ensures e.Recv? && e.outcome.Received? && w.arena.write + |e.outcome.bytes| > w.arena.Capacity() ==>
      w'.arena == w.arena && w'.phase == Listening
    // a receive error ends the session with the arena untouched
    ensures e.Recv? && e.outcome.RecvError? ==> w'.arena == w.arena && w'.phase == Listening
    // leaving a session releases its client socket exactly once
    ensures w.phase == Reading && w.client && w'.phase != Reading ==>
      !w'.client && w'.releases == w.releases + 1
  {
    match e
    case SetupFailed(_) => w.(phase := Exited)
    case Bound => w.(phase := Listening)
    case ShouldStop =>
      if w.phase == Reading then Release(w).(phase := Exited) else w.(phase := Exited)
    case ListenFailed(_) => w
    case AcceptFailed(_) => w
    case Accepted => Worker(w.arena.Reset(), Reading, true, 0)
    case Recv(RecvError(_)) => LeaveSession(w)
    case Recv(Received(chunk)) =>
      match Append(w.arena, chunk)
      case Overflow => LeaveSession(Release(w))
      case Appended(a) =>
        if |chunk| == 0 then LeaveSession(Release(w.(arena := a))) else w.(arena := a)
  }

  /** The thread as module init starts it: cursors at 0, nothing accepted. */
  function Initial(data: seq<byte>): (w: Worker)
    ensures Inv(w) && w.phase == Setup
  {
    Worker(Arena(data, 0, 0), Setup, false, 0)
  }

  /** A sequence of observations the loop can actually make, one after the
      other. */
  predicate Feasible(w: Worker, es: seq<Event>)
    decreases |es|
  {
    |es| == 0 || (Enabled(w, es[0]) && Feasible(Step(w, es[0]), es[1..]))
  }

  function Run(w: Worker, es: seq<Event>): (w': Worker)
    requires Feasible(w, es)
    ensures w'.arena.Capacity() == w.arena.Capacity()
    decreases |es|
  {
    if |es| == 0 then w else Run(Step(w, es[0]), es[1..])
  }

  /** Whatever sequence of accepts, receives and failures the loop goes
      through, the write cursor never passes the capacity and no client socket
      is released twice. */
  lemma {:induction false} RunPreservesInv(w: Worker, es: seq<Event>)
    requires Inv(w) && Feasible(w, es)
    ensures Inv(Run(w, es))
    ensures Run(w, es).arena.write <= Run(w, es).arena.Capacity()
    decreases |es|
  {
    if |es| > 0 {
      RunPreservesInv(Step(w, es[0]), es[1..]);
    }
  }

  /** In a one-page arena, a client that sends 3000 bytes and closes leaves
      the write cursor at 3000, its socket released once and the thread back
      at accept; the next read of `data` returns all 3000 bytes. */
  lemma ThreeThousandBytesThenClose(data: seq<byte>, chunk: seq<byte>)
    requires |data| == PageSize && |chunk| == 3000
    ensures
      var es := [Bound, Accepted, Recv(Received(chunk)), Recv(Received([]))];
      && Feasible(Initial(data), es)
      && var w := Run(Initial(data), es);
      && w.arena.write == 3000 && w.arena.data[..3000] == chunk
      && w.phase == Listening && !w.client && w.releases == 1
      && Drain(w.arena).count == 3000
      && Drain(w.arena).bytes == Some(chunk)
      && Drain(w.arena).arena.read == 3000
  {
    var chunk0: seq<byte> := [];
    var es := [Bound, Accepted, Recv(Received(chunk)), Recv(Received(chunk0))];
    var w0 := Initial(data);
    var w1 := Step(w0, Bound);
    var w2 := Step(w1, Accepted);
    var w3 := Step(w2, Recv(Received(chunk)));
    var w4 := Step(w3, Recv(Received(chunk0)));
    assert es[3..][1..] == [];
    assert es[2..][1..] == es[3..];
    assert es[1..][1..] == es[2..];
    assert Feasible(w3, es[3..]) && Run(w3, es[3..]) == w4;
    assert Feasible(w2, es[2..]) && Run(w2, es[2..]) == w4;
    assert Feasible(w1, es[1..]) && Run(w1, es[1..]) == w4;
    assert Feasible(w0, es) && Run(w0, es) == w4;
    assert w4.arena.data[0..3000] == chunk;
  }

  /** What set_stop_param decides and returns. */
  datatype StopOutcome = StopOutcome(running: bool, stopped: bool, ret: int)

  /** set_stop_param as written: it stops the thread only when the VALUE
      RETURNED by param_set_int equals 1 and a thread exists, and always
      returns 0. `running` stands for recv_thread != NULL. */
  function SetStopParam(running: bool, setterResult: int): (r: StopOutcome)
    ensures r.stopped <==> setterResult == 1 && running
    ensures r.running <==> running && !r.stopped
    ensures !running ==> !r.running
    ensures r.ret == 0
  {
    if setterResult == 1 && running then StopOutcome(false, true, 0)
    else StopOutcome(running, false, 0)
  }

  /** param_set_int returns 0 or a negative code, never 1, so no write to
      `stop` ever stops the thread through set_stop_param. */
  lemma SetStopNeverFires(running: bool, setting: SetIntResult)
    requires setting.WellFormed()
    ensures !SetStopParam(running, setting.Ret()).stopped
    ensures SetStopParam(running, setting.Ret()).running == running
  {
  }

  /** The decision the handler evidently intends: stop when the value written
      to `stop` is 1. */
  function SetStopOnValue(running: bool, setting: SetIntResult): (r: StopOutcome)
    requires setting.WellFormed()
    ensures r.stopped <==> setting == SetOk(1) && running
    ensures r.running <==> running && !r.stopped
    ensures r.ret == setting.Ret()
  {
    if setting == SetOk(1) && running then StopOutcome(false, true, 0)
    else StopOutcome(running, false, setting.Ret())
  }

  /** The module as a whole: the thread's state and whether recv_thread is
      set. */
  datatype Service = Service(worker: Worker, running: bool)

  /** What the outside world does: the thread observes an event, someone reads
      `data`, or someone writes `stop` (with param_set_int's return value). */
  datatype Op = Observe(e: Event) | GetData | SetStop(setterResult: int)

  /** A thread that does not exist observes nothing, and should-stop only
      becomes true through the stop handler. */
  predicate Allowed(s: Service, op: Op) {
    match op
    case Observe(e) => Enabled(s.worker, e) && !e.ShouldStop?
    case GetData => true
    case SetStop(_) => true
  }

  /** kthread_stop: sets should-stop and waits until the thread function has
      returned. A thread still in its setup never reaches the arena. */
  function Halt(w: Worker): (w': Worker)
    ensures w'.phase == Exited
    ensures w'.arena == w.arena
    ensures Inv(w) ==> Inv(w')
  {
    match w.phase
    case Setup => w.(phase := Exited)
    case Exited => w
    case _ => Step(w, ShouldStop)
  }

  /** The module's states: the thread's invariant, and no thread left running
      once recv_thread has been cleared. */
  predicate ServiceInv(s: Service) {
    Inv(s.worker) && (!s.running ==> s.worker.phase == Exited)
  }

  function Apply(s: Service, op: Op): (s': Service)
    requires Allowed(s, op)
    ensures ServiceInv(s) ==> ServiceInv(s')
    ensures s'.worker.arena.Capacity() == s.worker.arena.Capacity()
    // reading `data` moves only the read cursor
    ensures op.GetData? ==>
      s'.running == s.running && s'.worker.phase == s.worker.phase
      && s'.worker.arena == Drain(s.worker.arena).arena
    // no operation starts a thread
    ensures !s.running ==> !s'.running
  {
    match op
    case Observe(e) => s.(worker := Step(s.worker, e))
    case GetData => s.(worker := s.worker.(arena := Drain(s.worker.arena).arena))
    case SetStop(res) =>
      var r := SetStopParam(s.running, res);
      Service(if r.stopped then Halt(s.worker) else s.worker, r.running)
  }

  predicate FeasibleOps(s: Service, ops: seq<Op>)
    decreases |ops|
  {
    |ops| == 0 || (Allowed(s, ops[0]) && FeasibleOps(Apply(s, ops[0]), ops[1..]))
  }

  function ApplyAll(s: Service, ops: seq<Op>): (s': Service)
    requires FeasibleOps(s, ops)
    decreases |ops|
  {
    if |ops| == 0 then s else ApplyAll(Apply(s, ops[0]), ops[1..])
  }

  /** Once the thread has been stopped, nothing restarts it and nothing writes
      the arena again: whatever happens afterwards, the bytes and the write
      cursor stay as they were and only reads move the read cursor, forward. */
  lemma {:induction false} StoppedServiceFreezesArena(s: Service, ops: seq<Op>)
    requires ServiceInv(s) && !s.running && FeasibleOps(s, ops)
    ensures !ApplyAll(s, ops).running
    ensures ApplyAll(s, ops).worker.arena.data == s.worker.arena.data
    ensures ApplyAll(s, ops).worker.arena.write == s.worker.arena.write
    ensures ApplyAll(s, ops).worker.arena.read >= s.worker.arena.read
    decreases |ops|
  {
    if |ops| > 0 {
      StoppedServiceFreezesArena(Apply(s, ops[0]), ops[1..]);
    }
  }
}

=== FILE: udp_receive.dfy ===
/** The UDP receive kernel module: receive_udp binds the module's socket,
    resets the arena's cursors and appends every datagram to the arena until
    it is told to stop, a receive fails or the arena is full; the `stop`
    parameter's setter starts and stops the thread; reads of `data` drain the
    arena. Sockets and threads are not modelled: every answer the loop waits
    for arrives as an Event, and the thread's existence is the Service's
    `running` flag. */
module UdpReceive {
  import opened Common
  import opened Ingest

  /** Where receive_udp stands; `ret` is the value of its local `ret`, and
      the value it returned once it has exited. */
  datatype Phase =
    | Binding            // before kernel_bind
    | Looping(ret: int)  // at the top of the receive loop
    | Exited(ret: int)   // the thread function has returned `ret`

  datatype Worker = Worker(arena: Arena, phase: Phase)

  /** What the loop observes at its next blocking call or checkpoint. */
  datatype Event =
    | Bind(ret: int)             // kernel_bind's result
    | ShouldStop                 // kthread_should_stop() is true at the loop top
    | StopFlag(value: int)       // the `stop` parameter is non-zero at the loop top (the thread then sleeps until kthread_stop)
    | Recv(outcome: RecvOutcome) // neither holds, and kernel_recvmsg answers

  predicate Enabled(w: Worker, e: Event) {
    match e
    case Bind(_) => w.phase == Binding
    case ShouldStop => w.phase.Looping?
    case StopFlag(value) => w.phase.Looping? && value != 0
    case Recv(o) => w.phase.Looping? && o.WellFormed()
  }

  /** The code after the loop: a receive buffer still held is freed and `ret`
      is overwritten with 0; a buffer already freed leaves `ret` alone. */
  function ExitCode(bufferHeld: bool, ret: int): (r: int)
    ensures bufferHeld ==> r == 0
    ensures !bufferHeld ==> r == ret
  {
    if bufferHeld then 0 else ret
  }

  /** One observation of the receive loop. */
  function Step(w: Worker, e: Event): (w': Worker)
    requires Enabled(w, e)
    ensures w'.arena.Capacity() == w.arena.Capacity()
    ensures w.arena.Valid() ==> w'.arena.Valid()
    // only a successful bind moves the read cursor
    ensures !(e.Bind? && e.ret >= 0) ==> w'.arena.read == w.arena.read
    // a failed bind returns its code and leaves the cursors alone
    ensures e.Bind? && e.ret < 0 ==> w' == Worker(w.arena, Exited(e.ret))
    // a successful bind resets both cursors before the first receive
    ensures e.Bind? && e.ret >= 0 ==>
      w'.arena.write == 0 && w'.arena.read == 0 && w'.arena.data == w.arena.data
      && w'.phase == Looping(e.ret)
    // should-stop ends the thread with 0
    ensures e.ShouldStop? ==> w' == Worker(w.arena, Exited(0))
    // a non-zero `stop` parks the thread before any receive or append; it
    // returns once kthread_stop wakes it, and the model takes it there at once
    ensures e.StopFlag? ==> w'.arena == w.arena && w'.phase.Exited?
    // a receive error is returned at once, cursors unchanged
    ensures e.Recv? && e.outcome.RecvError? ==> w' == Worker(w.arena, Exited(e.outcome.code))
    // a datagram that fits is copied at the write cursor, which grows by its length
    ensures e.Recv? && e.outcome.Received? && w.arena.write + |e.outcome.bytes| <= w.arena.Capacity() ==>
      var n := |e.outcome.bytes|;
      && w'.arena.Capacity() == w.arena.Capacity()
      && w'.arena.write == w.arena.write + n
      && w'.arena.data[w.arena.write..w'.arena.write] == e.outcome.bytes
      && w'.arena.data[..w.arena.write] == w.arena.data[..w.arena.write]
      && w'.arena.data[w'.arena.write..] == w.arena.data[w'.arena.write..]
      && w'.phase == Looping(n)
    // a datagram that does not fit ends the thread, and it returns 0, not -ENOMEM
    ensures e.Recv? && e.outcome.Received? && w.arena.write + |e.outcome.bytes| > w.arena.Capacity() ==>
      w' == Worker(w.arena, Exited(0))
  {
    match e
    case Bind(ret) =>
      if ret < 0 then w.(phase := Exited(ret)) else Worker(w.arena.Reset(), Looping(ret))
    case ShouldStop => w.(phase := Exited(ExitCode(true, w.phase.ret)))
    case StopFlag(_) => w.(phase := Exited(ExitCode(false, w.phase.ret)))
    case Recv(RecvError(code)) => w.(phase := Exited(code))
    case Recv(Received(chunk)) =>
      match Append(w.arena, chunk)
      case Appended(a) => Worker(a, Looping(|chunk|))
      case Overflow => w.(phase := Exited(ExitCode(true, -ENOMEM)))
  }

  /** A `stop` seen at the loop top puts the thread to sleep; once woken it
      frees the receive buffer before breaking, so it returns whatever `ret`
      last held: the bind result before
      any datagram, the length of the last datagram after one. */
  lemma StopFlagReturnsLastLength(w: Worker, bytes: seq<byte>, value: int)
    requires w.arena.Valid() && w.phase.Looping?
    requires |bytes| <= PageSize && w.arena.write + |bytes| <= w.arena.Capacity()
    requires value != 0
    ensures Step(Step(w, Recv(Received(bytes))), StopFlag(value)).phase == Exited(|bytes|)
  {
  }

  /** After an overflow the -ENOMEM the loop stored is overwritten by the
      cleanup, whatever the arena and the datagram. */
  lemma OverflowReportsSuccess(w: Worker, bytes: seq<byte>)
    requires w.phase.Looping? && |bytes| <= PageSize
    requires w.arena.write + |bytes| > w.arena.Capacity()
    ensures Step(w, Recv(Received(bytes))).phase == Exited(0)
    ensures Step(w, Recv(Received(bytes))).phase != Exited(-ENOMEM)
  {
  }

  /** The exit code the overflow branch evidently intends: an error stored in
      `ret` survives the cleanup, which only clears a non-negative `ret`. */
  function ExitCodeKeepingError(bufferHeld: bool, ret: int): (r: int)
    ensures ret < 0 ==> r == ret
    ensures ret >= 0 ==> r == ExitCode(bufferHeld, ret)
  {
    if bufferHeld && ret >= 0 then 0 else ret
  }

  predicate Feasible(w: Worker, es: seq<Event>)
    decreases |es|
  {
    |es| == 0 || (Enabled(w, es[0]) && Feasible(Step(w, es[0]), es[1..]))
  }

  /** The thread never advances the read cursor: it can only zero it, by
      binding; and a thread that has returned observes nothing more. */
  function Run(w: Worker, es: seq<Event>): (w': Worker)
    requires Feasible(w, es)
    ensures w'.arena.Capacity() == w.arena.Capacity()
    ensures w'.arena.read == w.arena.read || w'.arena.read == 0
    ensures w.phase.Exited? ==> w' == w
    decreases |es|
  {
    if |es| == 0 then w else Run(Step(w, es[0]), es[1..])
  }

  /** Whatever the thread observes, the write cursor stays inside the arena. */
  lemma {:induction false} RunKeepsWriteInArena(w: Worker, es: seq<Event>)
    requires w.arena.Valid() && Feasible(w, es)
    ensures Run(w, es).arena.Valid()
    decreases |es|
  {
    if |es| > 0 {
      RunKeepsWriteInArena(Step(w, es[0]), es[1..]);
    }
  }

  /** In a one-page arena, three 1000-byte datagrams fill it to 3000; a
      fourth of 1100 bytes does not fit (4100 > 4096), is not copied, and the
      thread returns 0 with the write cursor still at 3000. */
  lemma FourthDatagramOverflows(w: Worker, d1: seq<byte>, d2: seq<byte>, d3: seq<byte>, d4: seq<byte>)
    requires w.arena.Capacity() == PageSize && w.phase == Binding
    requires |d1| == |d2| == |d3| == 1000 && |d4| == 1100
    ensures
      var es := [Bind(0), Recv(Received(d1)), Recv(Received(d2)), Recv(Received(d3)), Recv(Received(d4))];
      && Feasible(w, es)
      && Run(w, es).arena.write == 3000
      && Run(w, es).arena.data[..3000] == d1 + d2 + d3
      && Run(w, es).phase == Exited(0)
  {
    var es := [Bind(0), Recv(Received(d1)), Recv(Received(d2)), Recv(Received(d3)), Recv(Received(d4))];
    var w1 := Step(w, es[0]);
    var w2 := Step(w1, es[1]);
    var w3 := Step(w2, es[2]);
    var w4 := Step(w3, es[3]);
    var w5 := Step(w4, es[4]);
    assert es[4..][1..] == [];
    assert es[3..][1..] == es[4..];
    assert es[2..][1..] == es[3..];
    assert es[1..][1..] == es[2..];
    assert Feasible(w4, es[4..]) && Run(w4, es[4..]) == w5;
    assert Feasible(w3, es[3..]) && Run(w3, es[3..]) == w5;
    assert Feasible(w2, es[2..]) && Run(w2, es[2..]) == w5;
    assert Feasible(w1, es[1..]) && Run(w1, es[1..]) == w5;
    assert Feasible(w, es) && Run(w, es) == w5;
    assert w4.arena.data[..3000] == w4.arena.data[..2000] + w4.arena.data[2000..3000];
    assert w4.arena.data[..2000] == w3.arena.data[..2000];
    assert w3.arena.data[..2000] == w3.arena.data[..1000] + w3.arena.data[1000..2000];
    assert w3.arena.data[..1000] == w2.arena.data[..1000];
  }

  /** kthread_run's result: a new thread, or an error pointer carrying a
      negative code. */
  datatype Spawn = Spawned | SpawnFailed(code: int)
  {
    predicate WellFormed() {
      SpawnFailed? ==> code < 0
    }
  }

  datatype Action = NoAction | Start | StartFailed | Stop

  /** What param_set_stop leaves behind: the `stop` parameter, whether
      recv_thread is set, what it did, and what it returns. */
  datatype StopOutcome = StopOutcome(stop: int, running: bool, action: Action, ret: int)

  /** param_set_stop as written. `running` stands for recv_thread != NULL. It
      starts a thread when the set succeeded, `stop` is now 0 and no thread
      exists; otherwise it stops the thread when `stop` is now 1 and one
      exists, even if the set itself failed. A failed start clears
      recv_thread first and then returns PTR_ERR of it, which is 0. */
  function ParamSetStop(stop: int, running: bool, setting: SetIntResult, spawn: Spawn): (r: StopOutcome)
    requires setting.WellFormed()
    ensures r.stop == setting.Stored(stop)
    ensures r.action in {Start, StartFailed} <==> setting == SetOk(0) && !running
    ensures r.action == Start <==> setting == SetOk(0) && !running && spawn.Spawned?
    ensures r.action == Stop <==> r.stop == 1 && running
    ensures r.running <==> r.action == Start || (running && r.action != Stop)
    ensures r.action == StartFailed ==> !r.running && r.ret == 0
    ensures r.action != StartFailed ==> r.ret == setting.Ret()
  {
    var ret := setting.Ret();
    var stop' := setting.Stored(stop);
    if ret == 0 && stop' == 0 && !running then
      match spawn
      case Spawned => StopOutcome(stop', true, Start, ret)
      case SpawnFailed(_) => StopOutcome(stop', false, StartFailed, 0)
    else if stop' == 1 && running then
      StopOutcome(stop', false, Stop, ret)
    else
      StopOutcome(stop', running, NoAction, ret)
  }

  /** The handler evidently intends to report a failed start with the error
      kthread_run returned. */
  function ParamSetStopReportingSpawnError(stop: int, running: bool, setting: SetIntResult, spawn: Spawn): (r: StopOutcome)
    requires setting.WellFormed() && spawn.WellFormed()
    ensures r.action == StartFailed ==> spawn.SpawnFailed? && !r.running && r.ret == spawn.code && r.ret < 0
    ensures r.action != StartFailed ==> r == ParamSetStop(stop, running, setting, spawn)
  {
    var r := ParamSetStop(stop, running, setting, spawn);
    if r.action == StartFailed then r.(ret := spawn.code) else r
  }

  /** The module as a whole: the thread's state, whether recv_thread is set,
      the `stop` parameter, and whether the module's one socket has been
      bound. The socket is created once, at load, and no thread run releases
      it. */
  datatype Service = Service(worker: Worker, running: bool, stop: int, bound: bool)

  datatype Op = Observe(e: Event) | GetData | SetStop(setting: SetIntResult, spawn: Spawn)

  /** A thread that does not exist observes nothing; should-stop only becomes
      true through the stop handler; the loop sees the `stop` parameter as it
      currently is. Binding a socket that is already bound fails (Linux's
      inet_bind answers -EINVAL), so once some thread run has bound the
      module's socket every later bind is an error. */
  predicate Allowed(s: Service, op: Op) {
    match op
    case Observe(e) =>
      && Enabled(s.worker, e)
      && !e.ShouldStop?
      && (e.Bind? && s.bound ==> e.ret < 0)
      && (e.StopFlag? ==> e.value == s.stop)
      && (e.Recv? ==> s.stop == 0)
    case GetData => true
    case SetStop(setting, spawn) => setting.WellFormed() && spawn.WellFormed()
  }

  /** kthread_stop: sets should-stop and waits until the thread function has
      returned. A thread whose function has not started yet never runs it and
      exits with -EINTR; one that has already bound is stopped at its loop
      top. (A thread that binds after the stop was requested is the event
      Bind followed by this.) */
  function Halt(w: Worker): (w': Worker)
    ensures w'.phase.Exited? && w'.arena == w.arena
    ensures w.phase == Binding ==> w'.phase == Exited(-EINTR)
    ensures w.phase.Looping? ==> w'.phase == Exited(0)
  {
    // an Exited thread here is one that already returned; see
    // StopAfterReturnStopsReturnedThread for what the module does to it
    match w.phase
    case Binding => w.(phase := Exited(-EINTR))
    case Looping(_) => Step(w, ShouldStop)
    case Exited(_) => w
  }

  predicate ServiceInv(s: Service) {
    s.worker.arena.Valid() && (!s.running ==> s.worker.phase.Exited?)
  }

  function Apply(s: Service, op: Op): (s': Service)
    requires Allowed(s, op)
    ensures ServiceInv(s) ==> ServiceInv(s')
    ensures s'.worker.arena.Capacity() == s.worker.arena.Capacity()
    // reading `data` moves only the read cursor
    ensures op.GetData? ==>
      s'.running == s.running && s'.stop == s.stop && s'.worker.phase == s.worker.phase
      && s'.worker.arena == Drain(s.worker.arena).arena
    // a new thread starts out binding, with the arena as it was
    ensures op.SetStop? && !s.running && s'.running ==>
      s'.worker == Worker(s.worker.arena, Binding)
    // the socket becomes bound by a successful bind and stays bound
    ensures s'.bound <==> s.bound || (op.Observe? && op.e.Bind? && op.e.ret >= 0)
  {
    match op
    case Observe(e) => s.(worker := Step(s.worker, e), bound := s.bound || (e.Bind? && e.ret >= 0))
    case GetData => s.(worker := s.worker.(arena := Drain(s.worker.arena).arena))
    case SetStop(setting, spawn) =>
      var r := ParamSetStop(s.stop, s.running, setting, spawn);
      var w :=
        match r.action
        case Start => Worker(s.worker.arena, Binding)
        case Stop => Halt(s.worker)
        case _ => s.worker;
      Service(w, r.running, r.stop, s.bound)
  }

  /** The only operation that can start a thread: a successful write of 0 to
      `stop` while kthread_run succeeds. */
  predicate Restarts(op: Op) {
    op.SetStop? && op.setting == SetOk(0) && op.spawn.Spawned?
  }

  predicate FeasibleOps(s: Service, ops: seq<Op>)
    decreases |ops|
  {
    |ops| == 0 || (Allowed(s, ops[0]) && FeasibleOps(Apply(s, ops[0]), ops[1..]))
  }

  function ApplyAll(s: Service, ops: seq<Op>): (s': Service)
    requires FeasibleOps(s, ops)
    decreases |ops|
  {
    if |ops| == 0 then s else ApplyAll(Apply(s, ops[0]), ops[1..])
  }

  /** Once the thread is stopped, nothing writes the arena until a write of 0
      to `stop` starts a new one: the bytes and the write cursor stay as they
      were and only reads move the read cursor, forward. */
  lemma {:induction false} StoppedUntilRestart(s: Service, ops: seq<Op>)
    requires ServiceInv(s) && !s.running && FeasibleOps(s, ops)
    requires forall i :: 0 <= i < |ops| ==> !Restarts(ops[i])
    ensures !ApplyAll(s, ops).running
    ensures ApplyAll(s, ops).worker.arena.data == s.worker.arena.data
    ensures ApplyAll(s, ops).worker.arena.write == s.worker.arena.write
    ensures ApplyAll(s, ops).worker.arena.read >= s.worker.arena.read
    decreases |ops|
  {
    if |ops| > 0 {
      assert !Restarts(ops[0]);
      var s1 := Apply(s, ops[0]);
      assert !s1.running;
      forall i | 0 <= i < |ops[1..]|
        ensures !Restarts(ops[1..][i])
      {
        assert ops[1..][i] == ops[i + 1];
      }
      StoppedUntilRestart(s1, ops[1..]);
    }
  }

  /** As written, a restarted thread binds the socket an earlier run already
      bound, so its bind fails and it returns before resetting the cursors:
      once the socket is bound and no thread is in its receive loop, nothing
      ever writes the arena again, whatever is written to `stop`. Only reads
      move the read cursor, forward. */
  lemma {:induction false} BoundSocketNeverReceivesAgain(s: Service, ops: seq<Op>)
    requires ServiceInv(s) && s.bound && !s.worker.phase.Looping? && FeasibleOps(s, ops)
    ensures ApplyAll(s, ops).bound && !ApplyAll(s, ops).worker.phase.Looping?
    ensures ApplyAll(s, ops).worker.arena.data == s.worker.arena.data
    ensures ApplyAll(s, ops).worker.arena.write == s.worker.arena.write
    ensures ApplyAll(s, ops).worker.arena.read >= s.worker.arena.read
    decreases |ops|
  {
    if |ops| > 0 {
      BoundSocketNeverReceivesAgain(Apply(s, ops[0]), ops[1..]);
    }
  }

  /** A restart after a stop, as written: the new thread's bind fails and it
      returns that error with the arena exactly as the stopped thread left
      it. */
  lemma RestartNeverResetsCursors(s: Service, bindRet: int)
    requires ServiceInv(s) && !s.running && s.bound
    ensures
      var s1 := Apply(s, SetStop(SetOk(0), Spawned));
      && s1.running && s1.worker.phase == Binding
      && (Allowed(s1, Observe(Bind(bindRet))) ==>
            bindRet < 0
            && Apply(s1, Observe(Bind(bindRet))).worker == Worker(s.worker.arena, Exited(bindRet)))
  {
  }

  /** The module evidently intends each started thread to receive on a socket
      of its own: starting a thread comes with an unbound socket, and every
      other operation behaves as written. */
  function ApplyWithFreshSocket(s: Service, op: Op): (s': Service)
    requires Allowed(s, op)
    ensures ServiceInv(s) ==> ServiceInv(s')
    ensures !s.running && s'.running ==> !s'.bound && s'.worker == Worker(s.worker.arena, Binding)
    ensures !(!s.running && s'.running) ==> s' == Apply(s, op)
  {
    var t := Apply(s, op);
    if !s.running && t.running then t.(bound := false) else t
  }

  /** With a fresh socket per thread, writing 0 to `stop` after the thread
      was stopped starts a new one whose bind may succeed, and once it has
      bound both cursors are 0 again, however far the arena had been filled
      and drained. */
  lemma RestartResetsCursors(s: Service, bindRet: int)
    requires ServiceInv(s) && !s.running
    requires bindRet >= 0
    ensures
      var s1 := ApplyWithFreshSocket(s, SetStop(SetOk(0), Spawned));
      && s1.running && s1.stop == 0
      && Allowed(s1, Observe(Bind(bindRet)))
      && var s2 := ApplyWithFreshSocket(s1, Observe(Bind(bindRet)));
      && s2.running && s2.bound
      && s2.worker.arena.write == 0 && s2.worker.arena.read == 0
      && s2.worker.phase == Looping(bindRet)
  {
  }

  /** A thread that returned on its own (failed bind, receive error,
      overflow), or that sleeps after seeing a non-zero `stop`, still leaves
      recv_thread set, so writing 0 to `stop` neither wakes it nor starts
      another. A write of 1 first calls kthread_stop on it, which for a
      thread that already returned is StopsReturnedThread. */
  lemma ExitedThreadBlocksRestart(s: Service, spawn: Spawn)
    requires ServiceInv(s) && s.running && s.worker.phase.Exited?
    requires spawn.WellFormed()
    ensures Apply(s, SetStop(SetOk(0), spawn)) == s.(stop := 0)
  {
  }

  /** The write `op` makes param_set_stop call kthread_stop on a thread that
      has already returned. recv_thread is the bare task pointer kthread_run
      gave back, and the module holds no reference on it, so the task may
      already be gone. */
  predicate StopsReturnedThread(s: Service, op: Op) {
    && op.SetStop?
    && op.setting.WellFormed()
    && ParamSetStop(s.stop, s.running, op.setting, op.spawn).action == Stop
    && s.worker.phase.Exited?
  }

  /** As written, writing 0 to `stop` after a stop starts a thread whose bind
      of the module's bound socket fails, so it returns by itself; the next
      write of 1 then stops a thread that has already returned. */
  lemma StopAfterReturnStopsReturnedThread(s: Service, bindRet: int, spawn: Spawn)
    requires ServiceInv(s) && !s.running && s.bound
    ensures
      var s1 := Apply(s, SetStop(SetOk(0), Spawned));
      && Allowed(s1, Observe(Bind(bindRet))) ==>
        var s2 := Apply(s1, Observe(Bind(bindRet)));
        && s2.running && s2.worker.phase.Exited?
        && StopsReturnedThread(s2, SetStop(SetOk(1), spawn))
  {
  }

  /** recv_thread is set exactly while the thread function has not returned. */
  predicate LiveInv(s: Service) {
    s.running <==> !s.worker.phase.Exited?
  }

  /** The module evidently intends recv_thread to name a live thread: a thread
      that returns by itself is forgotten as it returns, so a later write of
      1 stops nothing and a write of 0 starts a new one. Every other step
      behaves as written. */
  function ApplyForgettingReturned(s: Service, op: Op): (s': Service)
    requires Allowed(s, op)
    ensures ServiceInv(s) ==> ServiceInv(s')
    ensures LiveInv(s) ==> LiveInv(s')
    ensures s'.worker == Apply(s, op).worker && s'.stop == Apply(s, op).stop
    ensures s'.running <==> Apply(s, op).running && !(op.Observe? && s'.worker.phase.Exited?)
  {
    var t := Apply(s, op);
    if op.Observe? && t.worker.phase.Exited? then t.(running := false) else t
  }

  /** With returned threads forgotten, recv_thread names a live thread after
      any sequence of steps, so no write to `stop` ever stops a thread that
      has already returned. */
  lemma {:induction false} ForgettingNeverStopsReturnedThread(s: Service, ops: seq<Op>)
    requires LiveInv(s) && ForgetFeasible(s, ops)
    ensures LiveInv(ForgetAll(s, ops))
    ensures forall op :: !StopsReturnedThread(ForgetAll(s, ops), op)
    decreases |ops|
  {
    if |ops| > 0 {
      ForgettingNeverStopsReturnedThread(ApplyForgettingReturned(s, ops[0]), ops[1..]);
    }
  }

  predicate ForgetFeasible(s: Service, ops: seq<Op>)
    decreases |ops|
  {
    |ops| == 0 || (Allowed(s, ops[0]) && ForgetFeasible(ApplyForgettingReturned(s, ops[0]), ops[1..]))
  }

  function ForgetAll(s: Service, ops: seq<Op>): (s': Service)
    requires ForgetFeasible(s, ops)
    decreases |ops|
  {
    if |ops| == 0 then s else ForgetAll(ApplyForgettingReturned(s, ops[0]), ops[1..])
  }
}

=== FILE: udp_send.dfy ===
/** The UDP send kernel module's staging path: writing the `data` parameter
    measures the written string, copies it into a zero-filled 4096-byte send
    buffer and hands exactly that many bytes to the socket. The send itself is
    foreign; its result is an input. */
module UdpSend {
  import opened Common

  /** BUFFER_SIZE of the send module: the size of send_buffer. */
  const SendBufferSize: nat := 4096

  /** strlen: the number of bytes before the first NUL. The string the kernel
      hands to the setter is NUL-terminated. */
  function StrLen(s: seq<byte>): (n: nat)
    requires 0 in s
    ensures n < |s| && s[n] == 0
    ensures forall i :: 0 <= i < n ==> s[i] != 0
  {
    if s[0] == 0 then 0
    else
      assert 0 in s[1..] by {
        var k :| 0 <= k < |s| && s[k] == 0;
        assert s[1..][k - 1] == 0;
      }
      1 + StrLen(s[1..])
  }

  /** The length strlen finds is that of the text before the terminator,
      whatever follows it. */
  lemma StrLenOfTerminated(text: seq<byte>, rest: seq<byte>)
    requires forall i :: 0 <= i < |text| ==> text[i] != 0
    ensures 0 in text + [0] + rest
    ensures StrLen(text + [0] + rest) == |text|
  {
    assert (text + [0] + rest)[|text|] == 0;
  }

  /** send_udp: kernel_sendmsg's result is reported as 0 on success, not as
      the number of bytes sent, and as the negative code on failure. */
  function SendUdp(sendResult: int): (ret: int)
    ensures ret <= 0
    ensures sendResult >= 0 ==> ret == 0
    ensures sendResult < 0 ==> ret == sendResult
  {
    if sendResult < 0 then sendResult else 0
  }

  /** What a write of `data` leaves behind: the setter's return value, the
      send buffer afterwards, and the datagram handed to the socket, if any. */
  datatype SetDataOutcome = SetDataOutcome(ret: int, staging: seq<byte>, sent: Option<seq<byte>>)

  /** param_set_data. A string longer than the send buffer is refused with
      -EINVAL, touching nothing; one of at most 4096 bytes (4096 included) is
      copied over a zeroed buffer and sent with its own length. */
  function SetData(val: seq<byte>, staging: seq<byte>, sendResult: int): (r: SetDataOutcome)
    requires 0 in val
    requires |staging| == SendBufferSize
    ensures |r.staging| == SendBufferSize
    ensures r.sent.Some? <==> StrLen(val) <= SendBufferSize
    ensures r.sent.None? ==> r.ret == -EINVAL && r.staging == staging
    ensures r.sent.Some? ==>
      var len := StrLen(val);
      && r.staging[..len] == val[..len]
      && (forall i :: len <= i < SendBufferSize ==> r.staging[i] == 0)
      && r.sent.value == val[..len]
      && r.ret == SendUdp(sendResult)
  {
    var len := StrLen(val);
    if len > SendBufferSize then
      SetDataOutcome(-EINVAL, staging, None)
    else
      // the whole buffer is zeroed, then the string copied over its start
      var zeroed := seq(SendBufferSize, _ => 0 as byte);
      var staged := val[..len] + zeroed[len..];
      // the send is handed the buffer's first len bytes
      SetDataOutcome(SendUdp(sendResult), staged, Some(staged[..len]))
  }

  /** A string of exactly 4096 bytes is accepted and sent whole: the length
      check is strict. */
  lemma FullBufferIsSent(text: seq<byte>, sendResult: int)
    requires |text| == SendBufferSize
    requires forall i :: 0 <= i < |text| ==> text[i] != 0
    ensures 0 in text + [0]
    ensures SetData(text + [0], seq(SendBufferSize, _ => 0), sendResult).sent == Some(text)
  {
    StrLenOfTerminated(text, []);
    assert text + [0] + [] == text + [0];
    assert (text + [0])[..|text|] == text;
  }

  /** One byte more and the string is refused. */
  lemma OneByteOverIsRefused(text: seq<byte>, staging: seq<byte>, sendResult: int)
    requires |text| == SendBufferSize + 1 && |staging| == SendBufferSize
    requires forall i :: 0 <= i < |text| ==> text[i] != 0
    ensures 0 in text + [0]
    ensures SetData(text + [0], staging, sendResult) == SetDataOutcome(-EINVAL, staging, None)
  {
    StrLenOfTerminated(text, []);
    assert text + [0] + [] == text + [0];
  }
}
